=== FILE: README.md ===
# srsglass region dump and timesheet rows, in Dafny

This project models the core of srsglass, a tool that turns a NationStates
region data dump into an update timesheet. The model covers two parts of
`src/lib.rs`:

- **Dump parsing** (`parse_dump`). The XML tokenizer's output is a list of
  events, and the parser's loop is a fold over that list. The fold's state is:
  - the single open tag it tracks;
  - the region being filled in;
  - the running population counter;
  - the regions finished so far.

  Each closing `REGION` tag does three things. It stamps the region with the
  counter as its "nations before" count. It adds the region's population to
  the counter. It appends the region to the output.

  An end tag clears the open tag only when its name equals the whole stored
  start tag, attributes included. So an element whose start tag has
  attributes is never closed by its end tag, and text after it still goes to
  that element's field.
- **Timesheet rows** (`save_to_excel`, without the workbook). This covers:
  - which regions get a row, and their row numbers;
  - the predicted minor and major update offsets, split into hours, minutes
    and seconds and rendered as `h:mm:ss`;
  - the endorsement count, which excludes the delegate's own vote;
  - the region link;
  - the factbook text, cut to Excel's cell limit.

Modules, in dependency order:

| file | module | contents |
|---|---|---|
| `wrappers.dfy` | `Wrappers` | `Option`, `Result` |
| `decimal.dfy` | `Decimal` | Rust's integer `parse` (sign, digits, range check) and `{}` rendering |
| `strings.dfy` | `Strings` | `trim`, the lowercase/underscore slug, UTF-8 byte lengths |
| `regions.dfy` | `Regions` | the `Region` record and the cumulative-population invariant |
| `dump_parser.dfy` | `DumpParser` | tokenizer events, one step of the loop, the fold, and its lemmas |
| `timesheet.dfy` | `Timesheet` | eligibility filter, offsets, endorsements, link, truncation, row building |

Facts about `src/lib.rs` that shape the model:
- It computes the update offsets in single precision (`f32`).
- Its sheet has no "Embassies" column, and its offsets have no sub-second
  precision.
- It does no highlight classification.

## Model

| member | source | states |
|---|---|---|
| `Decimal.ParseInt` | src/lib.rs:77-88 | Integer text is accepted exactly when it is an optional sign followed by at least one digit and its value fits the field's type. The result is that value. |
| `Decimal.Accumulate` | src/lib.rs:77-88 | The digit-by-digit checked accumulation fails part-way exactly when the final value is out of range, and otherwise yields the value the digits denote. |
| `Decimal.ShowInt` | src/lib.rs:173 | `{}` rendering of an integer is the shortest decimal digits of its magnitude, with no leading `0` except for zero itself. A `-` comes before the digits exactly when the number is negative, and there is never a `+`. |
| `Decimal.ShowIntValue` | src/lib.rs:183 | The text `{}` renders for an integer reads back as that integer. |
| `Decimal.ParseShowRoundTrip` | src/lib.rs:77-88 | Parsing the decimal rendering of `n` gives back `n` when it fits the type, and an error otherwise. |
| `Strings.Trim` | src/lib.rs:97 | The trimmed factbook is a contiguous piece of the CDATA text. Only whitespace was removed on either side, and the result neither starts nor ends with whitespace. |
| `Strings.TrimIdempotent` | src/lib.rs:97 | Trimming a trimmed factbook changes nothing. |
| `Strings.Slug` | src/lib.rs:156 | The slug has one character per character of the name. Each one is that character lowercased, with a space turned into `_`. |
| `Strings.SlugCanonical` | src/lib.rs:154-157 | A slug contains no space and no upper-case ASCII letter, and the slug of a slug is itself. |
| `Regions.CumulativeSteps` | src/lib.rs:61-66 | In a cumulative region list, the first region has 0 nations before it. Each later region has the previous count plus the previous population, or plus 0 when that population is absent. |
| `Regions.CumulativeLast` | src/lib.rs:61-66 | The last region's count plus its own population equals the total population of the list. |
| `Regions.CumulativeMonotone` | src/lib.rs:61-66 | When no population is negative, nations-before counts never decrease along dump order. |
| `Regions.CumulativeSnoc` | src/lib.rs:61-68 | Appending a region stamped with the current total keeps the list cumulative. |
| `DumpParser.Step` | src/lib.rs:50-103 | A start tag becomes the open tag and changes nothing else. An end tag always succeeds and clears the open tag exactly when its name equals the whole stored start tag; a non-`REGION` end leaves the region being built alone. A closing `REGION` appends exactly one region stamped with the counter, adds its population to the counter, and resets the accumulator; no other event changes the output or the counter. CDATA under `FACTBOOK` stores the trimmed text as the factbook, and CDATA under any other tag changes nothing. End-of-file and the ignored events change nothing. |
| `DumpParser.Run` | src/lib.rs:49-106 | A run over no events, or starting at end-of-file, succeeds with the state unchanged. A successful run only appends to the output, adding one region per closing `REGION` tag before end-of-file. It keeps the counter equal to the output's total population and keeps the output cumulative. |
| `DumpParser.ApplyText` | src/lib.rs:73-92 | Text under a field element fails exactly when the field is an integer field and the text is not an in-range integer. On success, `NAME` stores the text, `DELEGATEAUTH` stores whether it contains `X`, an integer field holds the parsed value, and `EMBASSY` appends the text to the embassy list. Every other field of the region stays as it was, and text under an element the parser does not read changes nothing. |
| `DumpParser.Parse` | src/lib.rs:35-109 | A successful parse yields one region per closing `REGION` tag before end-of-file. The list is cumulative, and its first region has 0 nations before it. |
| `DumpParser.ParseCumulative` | src/lib.rs:42-108 | After a whole successful parse, the first region has count 0 and each later count is the previous count plus the previous population. There is one region per closing `REGION` tag, and the final counter is the sum of the populations present. |
| `DumpParser.StepKeepsConsistent` | src/lib.rs:61-71 | A closing `REGION` preserves "counter = total of the output, output cumulative". |
| `DumpParser.RunStopsAtEof` | src/lib.rs:100 | The loop ends at the first end-of-file: the run over `prefix`, end-of-file and anything after is the run over `prefix`. |
| `DumpParser.ParseStopsAtEof` | src/lib.rs:100-108 | The parse of a dump is the parse of its events before the first end-of-file, so reaching end-of-file returns the regions built so far. |
| `DumpParser.RunAppend` | src/lib.rs:49-106 | Folding over `a + b` is folding over `a` and then over `b`, provided `a` contains no end-of-file. An error inside `a` is the error of the whole run. |
| `DumpParser.RegionAtItsClosingTag` | src/lib.rs:61-71 | The region emitted at a closing `REGION` is the accumulator at that moment, stamped with the counter. It sits at the index equal to the number of earlier closing tags, so output order is closing-tag order. |
| `DumpParser.StepFailure` | src/lib.rs:73-101 | One step fails exactly in four cases: on a tokenizer error; on undecodable text under a field element; on CDATA that is not UTF-8 under `FACTBOOK`; or on text that does not parse under an integer element. |
| `DumpParser.FailingStepAborts` | src/lib.rs:73-101 | A failing step after any successful prefix fails the whole parse, whatever follows, so there is no partial result. |
| `DumpParser.NonNumericAborts` | src/lib.rs:77-88 | Text inside `NUMNATIONS`, `DELEGATEVOTES`, `LASTMAJORUPDATE` or `LASTMINORUPDATE` that is not an integer, or is out of the field's range, fails the whole parse. |
| `DumpParser.ElementEffect` | src/lib.rs:51-92 | A complete element without attributes, other than `REGION`, applies its text to the region being built and leaves no tag open. Output and counter are unchanged. |
| `DumpParser.StepIgnoresText` | src/lib.rs:73-93 | Text with no open tag, or under an element the parser does not read, leaves the state unchanged. |
| `DumpParser.AttributedElementStaysOpen` | src/lib.rs:54-59 | An element whose start tag has attributes is not closed by its end tag: the open tag stays, so text after the element still goes to that field. |
| `DumpParser.TextAfterCloseIgnored` | src/lib.rs:54-59 | Text that follows a closed element without attributes is dropped. |
| `DumpParser.ApplyTextOverwrites` | src/lib.rs:76-89 | For `NAME`, `DELEGATEAUTH` and the integer fields, the newer text alone determines the field. |
| `DumpParser.OverwriteLastWins` | src/lib.rs:76-89 | A second element of an overwrite field replaces the first, which leaves no trace. |
| `DumpParser.DelegateExecIffX` | src/lib.rs:81-83 | A `DELEGATEAUTH` element always succeeds. It records executive authority exactly when its flags contain `X`. |
| `DumpParser.EmbassiesAppendInOrder` | src/lib.rs:90 | A run of `EMBASSY` elements appends their names in document order, duplicates included, and changes nothing else. |
| `Timesheet.Eligibles` | src/lib.rs:139-150 | Every region kept for the sheet has name, population, delegate votes, factbook and nations-before present. |
| `Timesheet.EligiblesExactly` | src/lib.rs:140-150 | A region is kept exactly when it is in the input and has all five required fields. |
| `Timesheet.EligiblesConcat` | src/lib.rs:139-150 | Filtering keeps input order: filtering two consecutive stretches gives the first stretch's rows followed by the second's. |
| `Timesheet.ParsedRegionEligible` | src/lib.rs:140-150 | A parsed region always carries its nations-before count. It is left out exactly when its name, population, delegate votes or factbook is missing. |
| `Timesheet.MakeRow` | src/lib.rs:152-201 | A row copies the region's name, population, nations-before count and delegate votes. Its link is `RegionLink` of the name. The minor and major cells are the offset texts for the minor and major update lengths. The endorsement cell is `Endorsements` of the votes. The factbook cell is `TruncateCell` of the entry: a prefix that fits in 32767 bytes, and the whole entry when that fits. |
| `Timesheet.BuildRows` | src/lib.rs:137-204 | There is one row per eligible region, in input order. Rows are numbered consecutively from 1, and each row holds that region's derived cells. |
| `Timesheet.Elapsed` | src/lib.rs:164-176 | The offset is within the `i32` range. If `0 <= nations_before <= total` and the length is non-negative, then `0 <= offset <= length`. |
| `Timesheet.ElapsedIsFloor` | src/lib.rs:164-166 | The offset is the largest whole second not past the region's proportional position in the update. |
| `Timesheet.ElapsedMonotone` | src/lib.rs:164-166 | More nations before a region never gives an earlier offset. |
| `Timesheet.PredictionFollowsDumpOrder` | src/lib.rs:164-176 | Along a cumulative list with no negative population, predicted offsets never decrease in dump order. |
| `Timesheet.Saturate32` | src/lib.rs:166 | The `as i32` cast, here and at line 176, gives the `i32` value nearest to its operand. That is the operand itself when it fits. |
| `Timesheet.TruncDiv` | src/lib.rs:167-169 | Rust's `/`, here and at lines 177-179: a non-negative dividend lies between `q * b` and the next multiple, and a negative one between `q * b` and the previous multiple, so the quotient rounds toward zero. |
| `Timesheet.TruncRem` | src/lib.rs:168-169 | Rust's `%`, here and at lines 178-179: quotient times divisor plus remainder is the dividend. The remainder has the dividend's sign and is smaller than the divisor in magnitude. |
| `Timesheet.SplitDuration` | src/lib.rs:167-169 | Hours, minutes and seconds add back up to the duration. For a non-negative duration, minutes and seconds are in `0..59` and hours are unbounded. A negative duration gives non-positive parts. |
| `Timesheet.SplitDurationUnique` | src/lib.rs:177-179 | For a non-negative duration, the split is the only one with minutes and seconds below 60. |
| `Timesheet.Pad2` | src/lib.rs:173 | `{:0>2}`, here and at line 183, ends with the padded text, has only `0` before it, and is two characters long unless the text is already longer. |
| `Timesheet.FormatClock` | src/lib.rs:170-174 | The same format as at lines 180-184. For a split non-negative duration, the text is the hours' decimal digits followed by `:mm:ss`, with two digits each for minutes and seconds. |
| `Timesheet.ClockTextDeterminesDuration` | src/lib.rs:170-174 | Two non-negative durations have the same `h:mm:ss` text exactly when they are equal. |
| `Timesheet.HalfwayScenario` | src/lib.rs:164-169 | With 1000 nations and a 3600-second update, a region with 500 nations before it updates at 0 h 30 min 0 s. |
| `Timesheet.HalfHourText` | src/lib.rs:180-184 | Half an hour renders as `0:30:00`. |
| `Timesheet.Endorsements` | src/lib.rs:191-195 | Zero votes give 0 endorsements. Any other count loses exactly the delegate's own vote. For non-negative votes the result is between 0 and the votes. |
| `Timesheet.RegionLink` | src/lib.rs:154-157 | The link is the fixed base URL followed by one character per character of the name: lowercased, with spaces turned into `_`. It contains no spaces or upper-case letters after the base. |
| `Timesheet.RegionLinkOfSlug` | src/lib.rs:154-157 | A name and its slug link to the same page. |
| `Timesheet.CutAtByte` | src/lib.rs:200 | Cutting at byte `n` gives the prefix of exactly `n` UTF-8 bytes. It fails exactly when no prefix has `n` bytes, because byte `n` falls inside a character. |
| `Timesheet.TruncateBytes` | src/lib.rs:200 | Byte truncation as written. An entry of at most `n` bytes is kept whole. A longer one is cut to the prefix of exactly `n` bytes. It panics exactly when the entry is longer than `n` bytes and no prefix has exactly `n` bytes. |
| `Timesheet.TruncateBytesPanics` | src/lib.rs:200 | Byte truncation panics on 32766 ASCII characters followed by `é`. The corrected cut drops the `é` and keeps the 32766 characters. |
| `Timesheet.CutBelowByte` | src/lib.rs:200 | The cut is the longest prefix that fits in `n` bytes: it fits, and adding the next character would pass `n`. An entry that fits is kept whole. |
| `Timesheet.TruncateCell` | src/lib.rs:198-200 | The factbook cell is the longest prefix of the entry within 32767 bytes, and so within 32767 characters. An entry that fits is kept whole. |
| `Timesheet.TruncateCellAgrees` | src/lib.rs:200 | Wherever the byte truncation as written does not panic, it gives the same text as the corrected cut. |
| `Timesheet.TruncateCellIdempotent` | src/lib.rs:200 | Truncating again changes nothing. |
| `Timesheet.TruncationsAgreeOnAscii` | src/lib.rs:200 | On ASCII text, the byte truncation as written never panics. It agrees with the corrected cut, which keeps the first 32767 characters. |

## Left out

- Gzip decompression, opening and creating files, and the HTTP download (`download_dump`). These are I/O.
- The XML tokenizer, including entity decoding and `trim_text`. Its output is the event list, already decoded and trimmed. A text node that does not decode is the `UndecodableText` event. A CDATA section whose bytes are not UTF-8 is the `UndecodableCData` event. The byte-level decoding itself is not modelled.
- `DumpParser.Step`: the tokenizer error branch panics in the source. It is modelled as the `Malformed` failure of the parse.
- `DumpParser.Step`: the running counter and the nations-before counts are unbounded integers. The source's `i32` `+=` would overflow past 2147483647: it panics in debug builds and wraps in release builds.
- `Timesheet.Elapsed`: computes the exact floor of `nations_before * length / total` instead of single-precision float arithmetic. At the default update lengths of 5350 and 3550 seconds it differs from the source by at most a second. Once the operands exceed `f32`'s 24-bit precision the difference grows: with 1 nation before, a total of 3 and a length of 2147483647, the model gives 715827882 and the source about 715827904. For lengths above 2^24 the source's offset can even exceed `length`, which the model's `0 <= offset <= length` does not show; with `nations_before == total` and a length of 16777219, the source gives 16777220. When the total is zero, it follows the float result: NaN becomes 0 and an infinity becomes the `i32` bound.
- `Timesheet.Endorsements`: `delegate_votes - 1` at the minimum `i32` overflows in the source, but not in this unbounded model.
- `Strings.Slug`, `Timesheet.RegionLink`: lowercase ASCII letters only. Rust's `to_lowercase` also maps non-ASCII letters, and some of those mappings change the length.
- The workbook itself: the header row, cell writes, hyperlink and number cells, errors the sink reports, and `save`. The model stops at the values each row's cells receive.
- `src/main.rs`: command-line parsing and orchestration. It calls a client, a dump date and a precision setting that `src/lib.rs` does not define. So membership lists, highlight classification, the dump reference date and sub-second precision are not modelled.

## Findings

| source | as written | input that shows it | evidently intended | confidence | as-written member | corrected member |
|---|---|---|---|---|---|---|
| src/lib.rs:200 | `factbook.truncate(32767)` counts UTF-8 bytes and panics when byte 32767 is not a character boundary | a factbook of 32766 ASCII characters followed by `é` (two bytes), so byte 32767 falls inside the `é` | fit the entry in Excel's cell limit, which the comment at lines 198-199 cites, without failing: cut at the last character boundary at or below byte 32767 | medium (the dump's factbooks may never be this long); not executed | `Timesheet.TruncateBytesPanics` | `Timesheet.TruncateCell` |

The as-written behaviour is `Timesheet.TruncateBytes` (built on
`Timesheet.CutAtByte`). The row builder `Timesheet.BuildRows` uses the
corrected `Timesheet.TruncateCell` (built on `Timesheet.CutBelowByte`).
`Timesheet.TruncateCellAgrees` shows that the two give the same text on every
entry where the source does not panic. `Timesheet.TruncationsAgreeOnAscii`
shows that on ASCII text the source never panics.

=== FILE: decimal.dfy ===
/** Base-10 integers as text: the `str::parse` the dump parser applies to the
    integer fields (Rust's `FromStr` for `i32`/`i64`), and the `{}` rendering
    the timesheet uses for hours, minutes and seconds. */
module Decimal {
  import opened Wrappers

  const I32Min: int := -0x8000_0000
  const I32Max: int := 0x7FFF_FFFF
  const I64Min: int := -0x8000_0000_0000_0000
  const I64Max: int := 0x7FFF_FFFF_FFFF_FFFF

  predicate IsDigit(c: char) {
    '0' <= c <= '9'
  }

  predicate AllDigits(s: string) {
    forall i | 0 <= i < |s| :: IsDigit(s[i])
  }

  function DigitValue(c: char): nat
    requires IsDigit(c)
  {
    c as int - '0' as int
  }

  function DigitChar(d: nat): (c: char)
    requires d < 10
    ensures IsDigit(c) && DigitValue(c) == d
  {
    ('0' as int + d) as char
  }

  /** The number a string of decimal digits denotes, most significant first. */
  function DigitsValue(s: string): nat
    requires AllDigits(s)
    decreases |s|
  {
    if |s| == 0 then 0 else 10 * DigitsValue(s[..|s| - 1]) + DigitValue(s[|s| - 1])
  }

  /** The text after an optional leading sign. */
  function Unsigned(s: string): string {
    if |s| > 0 && (s[0] == '+' || s[0] == '-') then s[1..] else s
  }

  /** The grammar `FromStr` accepts for a signed integer: an optional `+` or
      `-`, then at least one ASCII digit, and nothing else (no whitespace). */
  predicate WellFormed(s: string) {
    |Unsigned(s)| > 0 && AllDigits(Unsigned(s))
  }

  /** A magnitude with a sign applied. */
  function Signed(negative: bool, magnitude: nat): int {
    if negative then 0 - magnitude else magnitude
  }

  /** The mathematical value of well-formed integer text. */
  function Value(s: string): int
    requires WellFormed(s)
  {
    Signed(s[0] == '-', DigitsValue(Unsigned(s)))
  }

  /** A prefix of a digit string never denotes more than the whole string. */
  lemma {:induction false} PrefixValueBound(s: string, i: nat)
    requires AllDigits(s) && i <= |s|
    ensures DigitsValue(s[..i]) <= DigitsValue(s)
    decreases |s|
  {
    if i < |s| {
      var init := s[..|s| - 1];
      assert init[..i] == s[..i];
      PrefixValueBound(init, i);
    } else {
      assert s[..i] == s;
    }
  }

  /** The digit loop of `from_str_radix`: left to right, multiplying the
      accumulator by ten and adding (or, for a negative number, subtracting)
      the next digit, failing as soon as a checked step leaves `lo..hi`. */
  function Accumulate(digits: string, i: nat, acc: int, negative: bool, lo: int, hi: int): (r: Option<int>)
    requires AllDigits(digits) && i <= |digits|
    requires lo <= 0 <= hi && lo <= acc <= hi
    requires acc == Signed(negative, DigitsValue(digits[..i]))
    ensures var v := Signed(negative, DigitsValue(digits));
            r == if lo <= v <= hi then Some(v) else None
    decreases |digits| - i
  {
    if i == |digits| then
      assert digits[..i] == digits;
      Some(acc)
    else
      var d := DigitValue(digits[i]);
      var next := if negative then acc * 10 - d else acc * 10 + d;
      assert digits[..i + 1][..i] == digits[..i];
      if next < lo || next > hi then
        PrefixValueBound(digits, i + 1);
        None
      else
        Accumulate(digits, i + 1, next, negative, lo, hi)
  }

  /** `s.parse()` into an integer type whose range is `lo..hi`: the value
      when `s` is well formed and in range, and an error otherwise. */
  function ParseInt(s: string, lo: int, hi: int): (r: Option<int>)
    requires lo <= 0 <= hi
    ensures r.Some? <==> WellFormed(s) && lo <= Value(s) <= hi
    ensures r.Some? ==> r.value == Value(s)
  {
    if !WellFormed(s) then None
    else
      assert Unsigned(s)[..0] == [];
      Accumulate(Unsigned(s), 0, 0, s[0] == '-', lo, hi)
  }

  /** `{}` formatting of a non-negative integer: shortest decimal digits, so
      no leading `0` except for zero itself. */
  function ShowNat(n: nat): (s: string)
    ensures |s| > 0 && AllDigits(s)
    ensures s[0] == '0' ==> n == 0
    decreases n
  {
    if n < 10 then [DigitChar(n)] else ShowNat(n / 10) + [DigitChar(n % 10)]
  }

  /** `{}` formatting of any integer: the magnitude's shortest digits, with
      a `-` before them exactly when `n` is negative (never a `+`). The text
      is in the integer grammar; `ShowIntValue` shows it denotes `n`. */
  function ShowInt(n: int): (s: string)
    ensures WellFormed(s)
    ensures s[0] == '-' <==> n < 0
    ensures n >= 0 ==> s == ShowNat(n)
    ensures n < 0 ==> s == "-" + ShowNat(-n)
  {
    if n < 0 then
      assert Unsigned("-" + ShowNat(-n)) == ShowNat(-n);
      "-" + ShowNat(-n)
    else
      assert Unsigned(ShowNat(n)) == ShowNat(n);
      ShowNat(n)
  }

  /** Reading back rendered digits gives the number that was rendered. */
  lemma {:induction false} ShowNatValue(n: nat)
    ensures DigitsValue(ShowNat(n)) == n
    decreases n
  {
    if n >= 10 {
      var s := ShowNat(n);
      assert s[..|s| - 1] == ShowNat(n / 10);
      ShowNatValue(n / 10);
    }
  }

  /** Distinct numbers render differently. */
  lemma ShowNatInjective(a: nat, b: nat)
    requires ShowNat(a) == ShowNat(b)
    ensures a == b
  {
    ShowNatValue(a);
    ShowNatValue(b);
  }

  /** The rendering of `n` denotes `n`. */
  lemma ShowIntValue(n: int)
    ensures Value(ShowInt(n)) == n
  {
    var s := ShowInt(n);
    if n < 0 {
      var m := ShowNat(-n);
      ShowNatValue(-n);
      assert s[1..] == m;
      assert Value(s) == Signed(true, DigitsValue(m));
    } else {
      var m := ShowNat(n);
      ShowNatValue(n);
      assert IsDigit(s[0]);
      assert Value(s) == Signed(false, DigitsValue(m));
    }
  }

  /** Round trip: parsing the rendering of `n` yields `n` exactly when `n`
      fits the target type, and an error otherwise. */
  lemma ParseShowRoundTrip(n: int, lo: int, hi: int)
    requires lo <= 0 <= hi
    ensures ParseInt(ShowInt(n), lo, hi) == if lo <= n <= hi then Some(n) else None
  {
    ShowIntValue(n);
  }
}

=== FILE: dump_parser.dfy ===
/** The event loop of `parse_dump`, as a fold over the tokenizer's events.
    The state is the single-level current tag, the region being filled in,
    the running population counter and the regions finished so far. */
module DumpParser {
  import opened Wrappers
  import opened Decimal
  import opened Strings
  import opened Regions

  /** An opening tag as the tokenizer reports it. `attributes` is whatever
      follows the name inside the brackets: empty for the dump's elements,
      and otherwise starting with whitespace, since the tokenizer ends the
      name at the first whitespace. */
  datatype StartTag = StartTag(name: string, attributes: string) {
    /** The tag's whole content: what the source gets when it dereferences
        the stored start tag. */
    function Raw(): string {
      name + attributes
    }
  }

  /** The tokenizer's output, with entity decoding and whitespace trimming
      already applied to text. */
  datatype Event =
    | Start(tag: StartTag)
    | End(name: string)
    | Text(text: string)
      /** A text node whose entity references do not decode. */
    | UndecodableText
    | CData(text: string)
      /** A CDATA section whose bytes are not valid UTF-8. */
    | UndecodableCData
    | Eof
      /** Self-closing tags, comments, declarations, processing instructions. */
    | Other
      /** The tokenizer found the document malformed. */
    | ReaderError

  datatype ParseError =
    | InvalidInteger(field: string, text: string)
    | InvalidEscape(field: string)
    | InvalidEncoding(field: string)
    | Malformed

  datatype ParserState = ParserState(
    currentTag: Option<StartTag>,
    current: Region,
    counter: int,
    regions: seq<Region>)

  const Initial: ParserState := ParserState(None, EmptyRegion, 0, [])

  const RegionTag: string := "REGION"
  const FactbookTag: string := "FACTBOOK"

  /** Elements whose text the parser reads into a region field. */
  const TextFields: set<string> :=
    {"NAME", "NUMNATIONS", "DELEGATEVOTES", "DELEGATEAUTH", "LASTMAJORUPDATE", "LASTMINORUPDATE", "EMBASSY"}

  /** Text fields parsed as integers: two `i32` fields, two `i64` fields. */
  const IntegerFields: set<string> := {"NUMNATIONS", "DELEGATEVOTES", "LASTMAJORUPDATE", "LASTMINORUPDATE"}

  /** Fields whose newest text replaces the previous value. */
  const OverwriteFields: set<string> := IntegerFields + {"NAME", "DELEGATEAUTH"}

  /** The range of the Rust integer type behind each integer field. */
  function FieldBounds(field: string): (b: (int, int))
    requires field in IntegerFields
    ensures b.0 <= 0 <= b.1
  {
    if field == "NUMNATIONS" || field == "DELEGATEVOTES" then (I32Min, I32Max) else (I64Min, I64Max)
  }

  function ParseField(field: string, text: string): Result<int, ParseError>
    requires field in IntegerFields
  {
    match ParseInt(text, FieldBounds(field).0, FieldBounds(field).1)
    case Some(n) => Success(n)
    case None => Failure(InvalidInteger(field, text))
  }

  /** The region field an integer element is read into. */
  function IntegerValue(r: Region, field: string): Option<int>
    requires field in IntegerFields
  {
    if field == "NUMNATIONS" then r.population
    else if field == "DELEGATEVOTES" then r.delegateVotes
    else if field == "LASTMAJORUPDATE" then r.lastMajor
    else r.lastMinor
  }

  /** Text under the element `field`, applied to the region being built. It
      fails exactly when the element is an integer field and the text is not
      an integer of that field's type; an integer field then holds the value
      the text denotes. Text under an element the parser does not read, and
      every field the text does not belong to, stay as they were. */
  function ApplyText(r: Region, field: string, text: string): (res: Result<Region, ParseError>)
    ensures res.Failure? <==>
              field in IntegerFields && !(WellFormed(text) && FieldBounds(field).0 <= Value(text) <= FieldBounds(field).1)
    ensures res.Success? && field in IntegerFields ==> IntegerValue(res.value, field) == Some(Value(text))
    ensures field !in TextFields ==> res == Success(r)
    ensures res.Success? ==> res.value.name == if field == "NAME" then Some(text) else r.name
    ensures res.Success? ==> res.value.delegateExec == if field == "DELEGATEAUTH" then Some('X' in text) else r.delegateExec
    ensures res.Success? && field != "NUMNATIONS" ==> res.value.population == r.population
    ensures res.Success? && field != "DELEGATEVOTES" ==> res.value.delegateVotes == r.delegateVotes
    ensures res.Success? && field != "LASTMAJORUPDATE" ==> res.value.lastMajor == r.lastMajor
    ensures res.Success? && field != "LASTMINORUPDATE" ==> res.value.lastMinor == r.lastMinor
    ensures res.Success? ==> res.value.factbook == r.factbook && res.value.nationsBefore == r.nationsBefore
    ensures res.Success? ==> res.value.embassies == if field == "EMBASSY" then r.embassies + [text] else r.embassies
  {
    if field == "NAME" then Success(r.(name := Some(text)))
    else if field == "NUMNATIONS" then
      var n :- ParseField(field, text);
      Success(r.(population := Some(n)))
    else if field == "DELEGATEVOTES" then
      var n :- ParseField(field, text);
      Success(r.(delegateVotes := Some(n)))
    else if field == "DELEGATEAUTH" then Success(r.(delegateExec := Some('X' in text)))
    else if field == "LASTMAJORUPDATE" then
      var n :- ParseField(field, text);
      Success(r.(lastMajor := Some(n)))
    else if field == "LASTMINORUPDATE" then
      var n :- ParseField(field, text);
      Success(r.(lastMinor := Some(n)))
    else if field == "EMBASSY" then Success(r.(embassies := r.embassies + [text]))
    else Success(r)
  }

  /** One turn of the loop. Only a closing `REGION` touches the output and the
      counter; it appends exactly one region, stamped with the counter. */
  function Step(st: ParserState, ev: Event): (r: Result<ParserState, ParseError>)
    ensures r.Success? && ev == End(RegionTag) ==>
              && r.value.regions == st.regions + [st.current.(nationsBefore := Some(st.counter))]
              && r.value.counter == st.counter + Contribution(st.current)
              && r.value.current == EmptyRegion
    ensures r.Success? && ev != End(RegionTag) ==>
              r.value.regions == st.regions && r.value.counter == st.counter
    ensures ev.Start? ==> r == Success(st.(currentTag := Some(ev.tag)))
    ensures ev.End? ==>
              && r.Success?
              && r.value.currentTag == if st.currentTag.Some? && st.currentTag.value.Raw() == ev.name then None else st.currentTag
    ensures ev.End? && ev.name != RegionTag ==> r.value.current == st.current
    ensures ev == Other || ev == Eof ==> r == Success(st)
    ensures ev.CData? && st.currentTag.Some? && st.currentTag.value.Raw() == FactbookTag ==>
              r == Success(st.(current := st.current.(factbook := Some(Trim(ev.text)))))
    ensures ev.CData? && !(st.currentTag.Some? && st.currentTag.value.Raw() == FactbookTag) ==> r == Success(st)
  {
    match ev
    case Start(tag) => Success(st.(currentTag := Some(tag)))
    case End(name) =>
      var tag := if st.currentTag.Some? && st.currentTag.value.Raw() == name then None else st.currentTag;
      if name == RegionTag then
        var finished := st.current.(nationsBefore := Some(st.counter));
        Success(ParserState(tag, EmptyRegion, st.counter + Contribution(st.current), st.regions + [finished]))
      else
        Success(st.(currentTag := tag))
    case Text(text) =>
      if st.currentTag.None? then Success(st)
      else
        var r :- ApplyText(st.current, st.currentTag.value.name, text);
        Success(st.(current := r))
    case UndecodableText =>
      if st.currentTag.Some? && st.currentTag.value.name in TextFields then
        Failure(InvalidEscape(st.currentTag.value.name))
      else Success(st)
    case CData(text) =>
      if st.currentTag.Some? && st.currentTag.value.Raw() == FactbookTag then
        Success(st.(current := st.current.(factbook := Some(Trim(text)))))
      else Success(st)
    case UndecodableCData =>
      if st.currentTag.Some? && st.currentTag.value.Raw() == FactbookTag then
        Failure(InvalidEncoding(FactbookTag))
      else Success(st)
    case Eof => Success(st)
    case Other => Success(st)
    case ReaderError => Failure(Malformed)
  }

  /** Closing `REGION` events before the first end-of-file. */
  function RegionEnds(events: seq<Event>): nat {
    if |events| == 0 || events[0] == Eof then 0
    else (if events[0] == End(RegionTag) then 1 else 0) + RegionEnds(events[1..])
  }

  /** The running counter is the population of the finished regions, and
      they are cumulative. */
  ghost predicate Consistent(st: ParserState) {
    Cumulative(st.regions) && st.counter == TotalPopulation(st.regions)
  }

  /** The loop from state `st`: stops at the first end-of-file (or when the
      events run out) and aborts on the first error. A successful run only
      appends to the output, one region per closing `REGION`, and keeps the
      state consistent. */
  function Run(st: ParserState, events: seq<Event>): (r: Result<ParserState, ParseError>)
    ensures r.Success? ==> |r.value.regions| == |st.regions| + RegionEnds(events)
    ensures r.Success? ==> r.value.regions[..|st.regions|] == st.regions
    ensures r.Success? && Consistent(st) ==> Consistent(r.value)
    ensures |events| == 0 || events[0] == Eof ==> r == Success(st)
    decreases |events|
  {
    if |events| == 0 || events[0] == Eof then Success(st)
    else
      var next :- Step(st, events[0]);
      StepKeepsConsistent(st, events[0]);
      var r := Run(next, events[1..]);
      if r.Success? then
        assert r.value.regions[..|next.regions|][..|st.regions|] == r.value.regions[..|st.regions|];
        r
      else r
  }

  /** `parse_dump` on the tokenizer's events: every region in the order its
      closing tag appeared, or the first error. */
  function Parse(events: seq<Event>): (r: Result<seq<Region>, ParseError>)
    ensures r.Success? ==> |r.value| == RegionEnds(events) && Cumulative(r.value)
    ensures r.Success? && |r.value| > 0 ==> r.value[0].nationsBefore == Some(0)
  {
    assert Consistent(Initial);
    var st :- Run(Initial, events);
    assert |st.regions| > 0 ==> st.regions[..0] == [];
    Success(st.regions)
  }

  lemma StepKeepsConsistent(st: ParserState, ev: Event)
    requires Step(st, ev).Success?
    ensures Consistent(st) ==> Consistent(Step(st, ev).value)
  {
    if Consistent(st) && ev == End(RegionTag) {
      var finished := st.current.(nationsBefore := Some(st.counter));
      CumulativeSnoc(st.regions, finished);
      TotalPopulationSnoc(st.regions, finished);
    }
  }

  /** Headline invariant of `parse_dump`: the first region has no nations
      before it, each later region's count is the previous count plus the
      previous population, there is one region per closing `REGION` tag, and
      the final counter is the sum of the populations present. */
  lemma ParseCumulative(events: seq<Event>)
    ensures Run(Initial, events).Success? ==> Parse(events) == Success(Run(Initial, events).value.regions)
    ensures Run(Initial, events).Success? ==> Cumulative(Run(Initial, events).value.regions)
    ensures Run(Initial, events).Success? ==> |Run(Initial, events).value.regions| == RegionEnds(events)
    ensures Run(Initial, events).Success? ==>
              Run(Initial, events).value.counter == TotalPopulation(Run(Initial, events).value.regions)
    ensures Run(Initial, events).Success? ==> CountsStepByPopulation(Run(Initial, events).value.regions)
  {
    if Run(Initial, events).Success? {
      InitialRun(events);
      CumulativeSteps(Run(Initial, events).value.regions);
    }
  }

  /** A successful run from the initial state ends consistent. */
  lemma InitialRun(events: seq<Event>)
    ensures Run(Initial, events).Success? ==> Consistent(Run(Initial, events).value)
  {
    assert Consistent(Initial);
  }

  /** Running over `a` then `b` is running over `a + b`, as long as `a`
      holds no end-of-file; an error in `a` is the error of the whole run. */
  lemma {:induction false} RunAppend(st: ParserState, a: seq<Event>, b: seq<Event>)
    requires Eof !in a
    ensures Run(st, a).Failure? ==> Run(st, a + b) == Run(st, a)
    ensures Run(st, a).Success? ==> Run(st, a + b) == Run(Run(st, a).value, b)
    decreases |a|
  {
    if |a| == 0 {
      assert a + b == b;
    } else {
      assert (a + b)[0] == a[0];
      assert (a + b)[1..] == a[1..] + b;
      var next := Step(st, a[0]);
      if next.Success? {
        RunAppend(next.value, a[1..], b);
      }
    }
  }

  /** The loop ends at the first end-of-file: whatever follows it is never
      read, and the run up to it is the whole run. */
  lemma RunStopsAtEof(st: ParserState, prefix: seq<Event>, rest: seq<Event>)
    requires Eof !in prefix
    ensures Run(st, prefix + [Eof] + rest) == Run(st, prefix)
  {
    assert prefix + [Eof] + rest == prefix + ([Eof] + rest);
    RunAppend(st, prefix, [Eof] + rest);
  }

  /** The parse of a dump is the parse of the events before its first
      end-of-file: reaching end-of-file ends the parse with what was built. */
  lemma ParseStopsAtEof(prefix: seq<Event>, rest: seq<Event>)
    requires Eof !in prefix
    ensures Parse(prefix + [Eof] + rest) == Parse(prefix)
  {
    RunStopsAtEof(Initial, prefix, rest);
  }

  /** A step that fails after any successful prefix makes the whole parse
      fail, whatever follows: there is never a partial result. */
  lemma FailingStepAborts(prefix: seq<Event>, ev: Event, rest: seq<Event>)
    requires Eof !in prefix
    requires Run(Initial, prefix).Success?
    requires Step(Run(Initial, prefix).value, ev).Failure?
    ensures Parse(prefix + [ev] + rest).Failure?
  {
    RunAppend(Initial, prefix, [ev] + rest);
    assert prefix + [ev] + rest == prefix + ([ev] + rest);
  }

  /** The errors of one step: a tokenizer error, undecodable text under a
      field element, CDATA that is not UTF-8 under `FACTBOOK`, and text under
      an integer element that `parse` rejects. Nothing else fails. */
  lemma StepFailure(st: ParserState, ev: Event)
    ensures Step(st, ev).Failure? <==>
              || ev == ReaderError
              || (ev == UndecodableText && st.currentTag.Some? && st.currentTag.value.name in TextFields)
              || (ev == UndecodableCData && st.currentTag.Some? && st.currentTag.value.Raw() == FactbookTag)
              || (ev.Text? && st.currentTag.Some? && st.currentTag.value.name in IntegerFields
                  && ParseInt(ev.text, FieldBounds(st.currentTag.value.name).0, FieldBounds(st.currentTag.value.name).1).None?)
  {
  }

  /** Non-numeric (or out-of-range) text inside `NUMNATIONS`, `DELEGATEVOTES`,
      `LASTMAJORUPDATE` or `LASTMINORUPDATE` fails the whole parse. */
  lemma NonNumericAborts(prefix: seq<Event>, text: string, rest: seq<Event>)
    requires Eof !in prefix
    requires Run(Initial, prefix).Success?
    requires var tag := Run(Initial, prefix).value.currentTag;
             && tag.Some? && tag.value.name in IntegerFields
             && !(WellFormed(text) && FieldBounds(tag.value.name).0 <= Value(text) <= FieldBounds(tag.value.name).1)
    ensures Parse(prefix + [Text(text)] + rest).Failure?
  {
    StepFailure(Run(Initial, prefix).value, Text(text));
    FailingStepAborts(prefix, Text(text), rest);
  }

  /** A whole element `<tag>text</tag>` without attributes. */
  function Element(tag: string, text: string): seq<Event> {
    [Start(StartTag(tag, "")), Text(text), End(tag)]
  }

  /** An element other than `REGION` applies its text to the region being
      built and leaves no tag open; the output and the counter stay put. */
  lemma ElementEffect(st: ParserState, tag: string, text: string)
    requires tag != RegionTag
    ensures ApplyText(st.current, tag, text).Failure? ==>
              Run(st, Element(tag, text)) == Failure(ApplyText(st.current, tag, text).error)
    ensures ApplyText(st.current, tag, text).Success? ==>
              Run(st, Element(tag, text)) == Success(st.(currentTag := None, current := ApplyText(st.current, tag, text).value))
  {
    var evs := Element(tag, text);
    var s1 := st.(currentTag := Some(StartTag(tag, "")));
    assert Step(st, evs[0]) == Success(s1);
    assert StartTag(tag, "").Raw() == tag;
    assert evs[1..][1..] == [End(tag)];
    assert evs[1..][1..][1..] == [];
    var applied := ApplyText(st.current, tag, text);
    if applied.Success? {
      var s2 := s1.(current := applied.value);
      assert Step(s1, Text(text)) == Success(s2);
      var s3 := s2.(currentTag := None);
      assert Step(s2, End(tag)) == Success(s3);
      assert Run(s3, []) == Success(s3);
      assert Run(s2, [End(tag)]) == Success(s3);
      assert Run(s1, evs[1..]) == Success(s3);
    }
  }

  /** Text outside any element, or under an element the parser does not
      read, changes nothing. */
  lemma StepIgnoresText(st: ParserState, text: string)
    requires st.currentTag.Some? ==> st.currentTag.value.name !in TextFields
    ensures Step(st, Text(text)) == Success(st)
  {
  }

  /** An element whose start tag carries attributes never closes: the end
      tag's name is compared with the whole start tag, attributes included,
      so the tag stays open and later text still goes to that field. */
  lemma AttributedElementStaysOpen(st: ParserState, tag: string, attributes: string, text: string)
    requires tag != RegionTag && |attributes| > 0
    requires Step(st.(currentTag := Some(StartTag(tag, attributes))), Text(text)).Success?
    ensures var s1 := st.(currentTag := Some(StartTag(tag, attributes)));
            var s2 := Step(s1, Text(text)).value;
            && Step(s2, End(tag)) == Success(s2)
            && s2.currentTag == Some(StartTag(tag, attributes))
  {
    var s1 := st.(currentTag := Some(StartTag(tag, attributes)));
    assert |StartTag(tag, attributes).Raw()| > |tag|;
  }

  /** Once an element has closed, text that follows it is dropped. */
  lemma TextAfterCloseIgnored(st: ParserState, tag: string, value: string, text: string)
    requires tag != RegionTag
    requires Run(st, Element(tag, value)).Success?
    ensures Run(st, Element(tag, value) + [Text(text)]) == Run(st, Element(tag, value))
  {
    ElementEffect(st, tag, value);
    RunAppend(st, Element(tag, value), [Text(text)]);
    StepIgnoresText(Run(st, Element(tag, value)).value, text);
    assert [Text(text)][1..] == [];
  }

  /** For an overwrite field the newer text alone decides the outcome. */
  lemma ApplyTextOverwrites(r: Region, tag: string, first: string, second: string)
    requires tag in OverwriteFields
    requires ApplyText(r, tag, first).Success?
    ensures ApplyText(ApplyText(r, tag, first).value, tag, second) == ApplyText(r, tag, second)
  {
  }

  /** For `NAME`, the integer fields and `DELEGATEAUTH`, a second element
      replaces the first: the earlier text leaves no trace. */
  lemma OverwriteLastWins(st: ParserState, tag: string, first: string, second: string)
    requires tag in OverwriteFields
    requires Run(st, Element(tag, first)).Success?
    ensures Run(st, Element(tag, first) + Element(tag, second)) == Run(st, Element(tag, second))
  {
    ElementEffect(st, tag, first);
    RunAppend(st, Element(tag, first), Element(tag, second));
    var mid := Run(st, Element(tag, first)).value;
    assert mid == st.(currentTag := None, current := ApplyText(st.current, tag, first).value);
    ApplyTextOverwrites(st.current, tag, first, second);
    ElementEffect(mid, tag, second);
    ElementEffect(st, tag, second);
  }

  /** `DELEGATEAUTH` records whether its flags contain `X`. */
  lemma DelegateExecIffX(st: ParserState, flags: string)
    ensures Run(st, Element("DELEGATEAUTH", flags)).Success?
    ensures Run(st, Element("DELEGATEAUTH", flags)).value.current.delegateExec == Some('X' in flags)
  {
    ElementEffect(st, "DELEGATEAUTH", flags);
  }

  /** One `EMBASSY` element per name, in order. */
  function EmbassyElements(names: seq<string>): seq<Event>
    ensures Eof !in EmbassyElements(names)
  {
    if |names| == 0 then [] else Element("EMBASSY", names[0]) + EmbassyElements(names[1..])
  }

  /** One `EMBASSY` element appends its name and leaves no tag open. */
  lemma EmbassyElementEffect(st: ParserState, name: string) returns (next: ParserState)
    ensures next == st.(currentTag := None, current := st.current.(embassies := st.current.embassies + [name]))
    ensures Run(st, Element("EMBASSY", name)) == Success(next)
  {
    next := st.(currentTag := None, current := st.current.(embassies := st.current.embassies + [name]));
    assert ApplyText(st.current, "EMBASSY", name) == Success(next.current);
    ElementEffect(st, "EMBASSY", name);
  }

  /** Embassy elements append their names to the region in document order,
      duplicates included, and change nothing else in the region. */
  lemma {:induction false} EmbassiesAppendInOrder(st: ParserState, names: seq<string>)
    ensures Run(st, EmbassyElements(names)).Success?
    ensures var st' := Run(st, EmbassyElements(names)).value;
            && st'.current == st.current.(embassies := st.current.embassies + names)
            && st'.regions == st.regions
            && st'.counter == st.counter
    decreases |names|
  {
    if |names| == 0 {
      assert st.current.embassies + names == st.current.embassies;
    } else {
      var mid := EmbassyElementEffect(st, names[0]);
      RunAppend(st, Element("EMBASSY", names[0]), EmbassyElements(names[1..]));
      EmbassiesAppendInOrder(mid, names[1..]);
      assert st.current.embassies + [names[0]] + names[1..] == st.current.embassies + names;
    }
  }

  /** The region emitted at a closing `REGION` tag is the accumulator at that
      moment stamped with the counter, and it lands at the position given by
      the number of earlier closing tags: output order is closing-tag order. */
  lemma RegionAtItsClosingTag(prefix: seq<Event>, rest: seq<Event>)
    requires Eof !in prefix
    requires Run(Initial, prefix).Success?
    requires Parse(prefix + [End(RegionTag)] + rest).Success?
    ensures var st := Run(Initial, prefix).value;
            var rs := Parse(prefix + [End(RegionTag)] + rest).value;
            && |st.regions| == RegionEnds(prefix) < |rs|
            && rs[RegionEnds(prefix)] == st.current.(nationsBefore := Some(st.counter))
  {
    var st := Run(Initial, prefix).value;
    assert prefix + [End(RegionTag)] + rest == prefix + ([End(RegionTag)] + rest);
    RunAppend(Initial, prefix, [End(RegionTag)] + rest);
    assert ([End(RegionTag)] + rest)[1..] == rest;
    var after := Step(st, End(RegionTag)).value;
    var fin := Run(after, rest).value;
    assert Parse(prefix + [End(RegionTag)] + rest) == Success(fin.regions);
    assert fin.regions[..|after.regions|][|st.regions|] == fin.regions[|st.regions|];
  }
}

=== FILE: regions.dfy ===
/** The `Region` record of `src/lib.rs` and the cumulative-population
    invariant that ties a parsed region list together. */
module Regions {
  import opened Wrappers

  /** One `<REGION>` of the dump. Every field is optional because the parser
      fills it in only when the matching element is seen; `embassies` grows
      one `<EMBASSY>` at a time. `nationsBefore` is not in the document: the
      parser stamps it with the population of all earlier regions. */
  datatype Region = Region(
    name: Option<string>,
    factbook: Option<string>,
    population: Option<int>,
    delegateVotes: Option<int>,
    delegateExec: Option<bool>,
    lastMajor: Option<int>,
    lastMinor: Option<int>,
    nationsBefore: Option<int>,
    embassies: seq<string>)

  /** `Region::default()`: nothing known yet. */
  const EmptyRegion: Region := Region(None, None, None, None, None, None, None, None, [])

  /** What a region adds to the running counter: its population, or nothing
      when the dump gave none. */
  function Contribution(r: Region): int {
    r.population.GetOr(0)
  }

  /** Sum of the populations present in `rs`. */
  function TotalPopulation(rs: seq<Region>): int
    decreases |rs|
  {
    if |rs| == 0 then 0 else TotalPopulation(rs[..|rs| - 1]) + Contribution(rs[|rs| - 1])
  }

  /** Every region is stamped with the total population of the regions
      before it in dump order. */
  ghost predicate Cumulative(rs: seq<Region>) {
    forall k | 0 <= k < |rs| :: rs[k].nationsBefore == Some(TotalPopulation(rs[..k]))
  }

  /** Appending a region adds its contribution to the total. */
  lemma TotalPopulationSnoc(rs: seq<Region>, r: Region)
    ensures TotalPopulation(rs + [r]) == TotalPopulation(rs) + Contribution(r)
  {
    assert (rs + [r])[..|rs|] == rs;
  }

  /** Appending a region stamped with the current total keeps the list
      cumulative. */
  lemma CumulativeSnoc(rs: seq<Region>, r: Region)
    requires Cumulative(rs)
    requires r.nationsBefore == Some(TotalPopulation(rs))
    ensures Cumulative(rs + [r])
  {
    var rs' := rs + [r];
    forall k | 0 <= k < |rs'|
      ensures rs'[k].nationsBefore == Some(TotalPopulation(rs'[..k]))
    {
      if k < |rs| {
        assert rs'[..k] == rs[..k];
      } else {
        assert rs'[..k] == rs;
      }
    }
  }

  /** The counts read region by region: the first region has no nations
      before it, and each later one has exactly the previous region's count
      plus the previous region's population (plus nothing when that
      population is absent). */
  ghost predicate CountsStepByPopulation(rs: seq<Region>) {
    && (|rs| > 0 ==> rs[0].nationsBefore == Some(0))
    && forall k | 0 <= k < |rs| - 1 ::
         && rs[k].nationsBefore.Some?
         && rs[k + 1].nationsBefore == Some(rs[k].nationsBefore.value + Contribution(rs[k]))
  }

  /** The cumulative invariant, read region by region. */
  lemma CumulativeSteps(rs: seq<Region>)
    requires Cumulative(rs)
    ensures CountsStepByPopulation(rs)
  {
    if |rs| > 0 {
      assert rs[..0] == [];
    }
    forall k | 0 <= k < |rs| - 1
      ensures rs[k + 1].nationsBefore == Some(rs[k].nationsBefore.value + Contribution(rs[k]))
    {
      assert rs[..k + 1][..k] == rs[..k];
    }
  }

  /** The last region's count plus its own population is the total of the
      whole list. */
  lemma CumulativeLast(rs: seq<Region>)
    requires Cumulative(rs) && |rs| > 0
    ensures rs[|rs| - 1].nationsBefore.Some?
    ensures rs[|rs| - 1].nationsBefore.value + Contribution(rs[|rs| - 1]) == TotalPopulation(rs)
  {
  }

  /** With no negative population in the list, the stamped counts never
      decrease along dump order. */
  lemma {:induction false} CumulativeMonotone(rs: seq<Region>, i: nat, j: nat)
    requires Cumulative(rs)
    requires forall k | 0 <= k < |rs| :: Contribution(rs[k]) >= 0
    requires i <= j < |rs|
    ensures rs[i].nationsBefore.value <= rs[j].nationsBefore.value
    decreases j - i
  {
    if i < j {
      CumulativeMonotone(rs, i, j - 1);
      assert rs[..j][..j - 1] == rs[..j - 1];
    }
  }
}

=== FILE: strings.dfy ===
/** Character-level string operations the source borrows from Rust's `str`:
    `trim`, `to_lowercase` followed by `replace(' ', "_")`, and the UTF-8
    byte length that `String::truncate` counts in. */
module Strings {

  /** Rust's `char::is_whitespace`: the Unicode `White_Space` property. */
  predicate IsWhitespace(c: char) {
    var n := c as int;
    || 0x09 <= n <= 0x0D
    || n == 0x20 || n == 0x85 || n == 0xA0 || n == 0x1680
    || 0x2000 <= n <= 0x200A
    || n == 0x2028 || n == 0x2029 || n == 0x202F || n == 0x205F || n == 0x3000
  }

  ghost predicate AllWhitespace(s: string) {
    forall i | 0 <= i < |s| :: IsWhitespace(s[i])
  }

  /** Length of the whitespace run that starts `s`. */
  function LeadingWhitespace(s: string): (k: nat)
    ensures k <= |s| && AllWhitespace(s[..k])
    ensures k < |s| ==> !IsWhitespace(s[k])
  {
    if |s| == 0 || !IsWhitespace(s[0]) then 0
    else
      var k := 1 + LeadingWhitespace(s[1..]);
      assert s[..k] == [s[0]] + s[1..][..k - 1];
      k
  }

  /** Where the whitespace run that ends `s` begins. */
  function TrailingWhitespace(s: string): (k: nat)
    ensures k <= |s| && AllWhitespace(s[k..])
    ensures 0 < k ==> !IsWhitespace(s[k - 1])
  {
    if |s| == 0 || !IsWhitespace(s[|s| - 1]) then |s|
    else
      var k := TrailingWhitespace(s[..|s| - 1]);
      assert s[k..] == s[..|s| - 1][k..] + [s[|s| - 1]];
      k
  }

  /** `str::trim`: `s` without its leading and trailing whitespace. The result
      is a contiguous piece of `s`, only whitespace was cut on either side, and
      it neither starts nor ends with whitespace. */
  function Trim(s: string): (t: string)
    ensures |t| == 0 || (!IsWhitespace(t[0]) && !IsWhitespace(t[|t| - 1]))
    ensures exists a, b | 0 <= a <= b <= |s| :: t == s[a..b] && AllWhitespace(s[..a]) && AllWhitespace(s[b..])
  {
    var a := LeadingWhitespace(s);
    var rest := s[a..];
    var b := TrailingWhitespace(rest);
    assert rest[..b] == s[a..a + b];
    assert rest[b..] == s[a + b..];
    assert b == 0 ==> AllWhitespace(s[..a + b]) by {
      if b == 0 {
        assert s[..a + b] == s[..a];
      }
    }
    rest[..b]
  }

  /** Trimming twice cuts nothing more. */
  lemma TrimIdempotent(s: string)
    ensures Trim(Trim(s)) == Trim(s)
  {
    var t := Trim(s);
    assert LeadingWhitespace(t) == 0;
    assert t[0..] == t;
    assert t[..|t|] == t;
  }

  /** `char::to_lowercase` on ASCII letters; other characters are kept. */
  function LowerAscii(c: char): char {
    if 'A' <= c <= 'Z' then (c as int + 32) as char else c
  }

  /** The per-character rewrite of a region name into its URL form. */
  function SlugChar(c: char): char {
    var l := LowerAscii(c);
    if l == ' ' then '_' else l
  }

  /** `name.to_lowercase().replace(' ', "_")`. */
  function Slug(name: string): (s: string)
    ensures |s| == |name|
    ensures forall i | 0 <= i < |s| :: s[i] == SlugChar(name[i])
  {
    if |name| == 0 then [] else [SlugChar(name[0])] + Slug(name[1..])
  }

  /** A slug holds no space and no upper-case ASCII letter, and is already
      its own slug. */
  lemma {:induction false} SlugCanonical(name: string)
    ensures forall i | 0 <= i < |Slug(name)| :: Slug(name)[i] != ' ' && !('A' <= Slug(name)[i] <= 'Z')
    ensures Slug(Slug(name)) == Slug(name)
  {
    var s := Slug(name);
    assert forall i | 0 <= i < |s| :: SlugChar(s[i]) == s[i];
    assert Slug(s) == s;
  }

  /** Bytes taken by `c` in UTF-8. */
  function Utf8Width(c: char): (w: nat)
    ensures 1 <= w <= 4
  {
    var n := c as int;
    if n < 0x80 then 1 else if n < 0x800 then 2 else if n < 0x1_0000 then 3 else 4
  }

  /** `String::len`: the length of `s` in UTF-8 bytes. */
  function Utf8Length(s: string): (n: nat)
    ensures |s| <= n <= 4 * |s|
  {
    if |s| == 0 then 0 else Utf8Width(s[0]) + Utf8Length(s[1..])
  }

  predicate IsAscii(s: string) {
    forall i | 0 <= i < |s| :: s[i] as int < 0x80
  }

  /** Byte length adds up over concatenation. */
  lemma {:induction false} Utf8LengthConcat(a: string, b: string)
    ensures Utf8Length(a + b) == Utf8Length(a) + Utf8Length(b)
    decreases |a|
  {
    if |a| == 0 {
      assert a + b == b;
    } else {
      assert (a + b)[1..] == a[1..] + b;
      Utf8LengthConcat(a[1..], b);
    }
  }

  /** A longer prefix takes at least as many bytes, and at least the width
      of each character it adds. */
  lemma Utf8LengthPrefix(s: string, i: nat, j: nat)
    requires i <= j <= |s|
    ensures Utf8Length(s[..i]) <= Utf8Length(s[..j])
    ensures i < j ==> Utf8Length(s[..i]) + Utf8Width(s[i]) <= Utf8Length(s[..j])
  {
    assert s[..j] == s[..i] + s[i..j];
    Utf8LengthConcat(s[..i], s[i..j]);
    if i < j {
      assert s[i..j][0] == s[i];
    }
  }

  /** An ASCII string takes one byte per character. */
  lemma {:induction false} Utf8LengthAscii(s: string)
    requires IsAscii(s)
    ensures Utf8Length(s) == |s|
    decreases |s|
  {
    if |s| > 0 {
      Utf8LengthAscii(s[1..]);
    }
  }
}

=== FILE: timesheet.dfy ===
/** The per-row computations of `save_to_excel`, without the workbook: which
    regions get a row, the predicted minor and major update offsets rendered
    as `h:mm:ss`, the endorsement count, the region link and the factbook
    cell text. */
module Timesheet {
  import opened Wrappers
  import opened Decimal
  import opened Strings
  import opened Regions

  const RegionUrlBase: string := "https://www.nationstates.net/region="

  /** Excel's limit on the length of one cell's text. */
  const MaxCellLength: nat := 32767

  // ---------------------------------------------------------------------------
  // Which regions get a row

  /** A region is written out only when its name, population, delegate votes,
      factbook and nations-before count are all known. */
  predicate Eligible(r: Region) {
    && r.name.Some?
    && r.population.Some?
    && r.delegateVotes.Some?
    && r.factbook.Some?
    && r.nationsBefore.Some?
  }

  /** The eligible regions, in input order. */
  function Eligibles(rs: seq<Region>): (e: seq<Region>)
    ensures forall k | 0 <= k < |e| :: Eligible(e[k])
    decreases |rs|
  {
    if |rs| == 0 then []
    else Eligibles(rs[..|rs| - 1]) + (if Eligible(rs[|rs| - 1]) then [rs[|rs| - 1]] else [])
  }

  /** A region is kept exactly when it is eligible: everything kept came
      from the input, and every eligible input region is kept. */
  lemma {:induction false} EligiblesExactly(rs: seq<Region>)
    ensures forall r :: r in Eligibles(rs) <==> r in rs && Eligible(r)
    decreases |rs|
  {
    if |rs| > 0 {
      var init := rs[..|rs| - 1];
      EligiblesExactly(init);
      assert rs == init + [rs[|rs| - 1]];
    }
  }

  /** In a parsed region list every region carries its nations-before
      count, so a parsed region is left out exactly when its name,
      population, delegate votes or factbook is missing. */
  lemma ParsedRegionEligible(rs: seq<Region>, k: nat)
    requires Cumulative(rs) && k < |rs|
    ensures Eligible(rs[k]) <==>
              rs[k].name.Some? && rs[k].population.Some? && rs[k].delegateVotes.Some? && rs[k].factbook.Some?
  {
  }

  /** Filtering keeps order: the rows of two consecutive stretches of regions
      are the rows of the first followed by the rows of the second. */
  lemma {:induction false} EligiblesConcat(a: seq<Region>, b: seq<Region>)
    ensures Eligibles(a + b) == Eligibles(a) + Eligibles(b)
    decreases |b|
  {
    if |b| == 0 {
      assert a + b == a;
    } else {
      var init := b[..|b| - 1];
      assert (a + b)[..|a + b| - 1] == a + init;
      EligiblesConcat(a, init);
    }
  }

  // ---------------------------------------------------------------------------
  // Predicted update offsets

  /** The largest integer not above `a / b`. */
  function FloorDiv(a: int, b: int): int
    requires b != 0
  {
    if b > 0 then a / b else (-a) / (-b)
  }

  function Dist(a: int, b: int): nat {
    if a <= b then b - a else a - b
  }

  /** `as i32` from a float: the `i32` value nearest to `x`, which is `x`
      itself when it fits. */
  function Saturate32(x: int): (y: int)
    ensures I32Min <= y <= I32Max
    ensures I32Min <= x <= I32Max ==> y == x
    ensures forall z | I32Min <= z <= I32Max :: Dist(y, x) <= Dist(z, x)
  {
    if x < I32Min then I32Min else if x > I32Max then I32Max else x
  }

  function Sign(x: int): int {
    if x > 0 then 1 else if x < 0 then -1 else 0
  }

  /** `(nations_before as f32 / total as f32 * length as f32).floor() as i32`,
      the whole seconds into an update of `length` seconds at which a region
      with `nationsBefore` nations ahead of it is reached. A zero total
      divides to an infinity (or to NaN when the numerator is zero), which
      the cast turns into a bound (or zero). */
  function Elapsed(nationsBefore: int, total: int, length: int): (d: int)
    ensures I32Min <= d <= I32Max
    ensures 0 <= nationsBefore <= total && 0 <= length <= I32Max ==> 0 <= d <= length
  {
    if total == 0 then
      var s := Sign(nationsBefore) * Sign(length);
      if s > 0 then I32Max else if s < 0 then I32Min else 0
    else
      var d := Saturate32(FloorDiv(nationsBefore * length, total));
      if 0 <= nationsBefore <= total && 0 <= length <= I32Max then
        ProportionBound(nationsBefore, total, length);
        d
      else d
  }

  lemma ProportionBound(n: int, total: int, length: int)
    requires 0 <= n <= total && 0 < total && 0 <= length
    ensures 0 <= (n * length) / total <= length
  {
    assert n * length <= total * length;
    assert (total * length) / total == length;
    DivMonotone(n * length, total * length, total);
  }

  lemma DivMonotone(a: int, b: int, c: int)
    requires a <= b && 0 < c
    ensures a / c <= b / c
  {
    var qa, qb := a / c, b / c;
    assert c * qa <= a && b < c * qb + c;
    assert c * (qa - qb) < c;
    MulBelow(c, qa - qb);
  }

  lemma MulBelow(c: int, x: int)
    requires 0 < c && c * x < c
    ensures x < 1
  {
    assert c * x == c * (x - 1) + c;
    assert x - 1 >= 0 ==> c * (x - 1) >= 0;
  }

  /** The offset is the floor of the exact proportion: the largest whole
      second not past `nationsBefore / total` of the way through. */
  lemma ElapsedIsFloor(nationsBefore: int, total: int, length: int)
    requires 0 <= nationsBefore <= total && 0 < total && 0 <= length <= I32Max
    ensures var d := Elapsed(nationsBefore, total, length);
            d * total <= nationsBefore * length < (d + 1) * total
  {
    ProportionBound(nationsBefore, total, length);
  }

  /** Regions further down the dump are never predicted earlier. */
  lemma ElapsedMonotone(n1: int, n2: int, total: int, length: int)
    requires n1 <= n2 && 0 < total && 0 <= length
    ensures Elapsed(n1, total, length) <= Elapsed(n2, total, length)
  {
    MulMonotone(n1, n2, length);
    DivMonotone(n1 * length, n2 * length, total);
    assert FloorDiv(n1 * length, total) <= FloorDiv(n2 * length, total);
  }

  lemma MulMonotone(a: int, b: int, c: int)
    requires a <= b && 0 <= c
    ensures a * c <= b * c
  {
    assert b * c == a * c + (b - a) * c;
  }

  /** Along a parsed region list with no negative population, predicted
      offsets never decrease in dump order. */
  lemma PredictionFollowsDumpOrder(rs: seq<Region>, i: nat, j: nat, total: int, length: int)
    requires Cumulative(rs)
    requires forall k | 0 <= k < |rs| :: Contribution(rs[k]) >= 0
    requires i <= j < |rs| && 0 < total && 0 <= length
    ensures rs[i].nationsBefore.Some? && rs[j].nationsBefore.Some?
    ensures Elapsed(rs[i].nationsBefore.value, total, length) <= Elapsed(rs[j].nationsBefore.value, total, length)
  {
    CumulativeMonotone(rs, i, j);
    ElapsedMonotone(rs[i].nationsBefore.value, rs[j].nationsBefore.value, total, length);
  }

  /** Rust's `/` on integers: rounds toward zero, so the quotient has the
      dividend's sign and `q * b` is the multiple of `b` nearest to zero
      without passing `a`. */
  function TruncDiv(a: int, b: int): (q: int)
    requires b > 0
    ensures a >= 0 ==> 0 <= q && q * b <= a < (q + 1) * b
    ensures a < 0 ==> q <= 0 && (q - 1) * b < a <= q * b
  {
    if a >= 0 then
      QuotientBounds(a, b);
      a / b
    else
      var m := (-a) / b;
      QuotientBounds(-a, b);
      assert (-m) * b == -(m * b) && (-m - 1) * b == -((m + 1) * b);
      -m
  }

  /** Euclidean division of a natural number brackets it between two
      consecutive multiples of the divisor. */
  lemma QuotientBounds(a: nat, b: int)
    requires b > 0
    ensures 0 <= a / b && (a / b) * b <= a < (a / b + 1) * b
  {
    assert a == (a / b) * b + a % b;
    assert (a / b + 1) * b == (a / b) * b + b;
  }

  /** Rust's `%` on integers: what the truncating quotient leaves over. It
      takes the sign of the dividend and is smaller than `b` in magnitude. */
  function TruncRem(a: int, b: int): (r: int)
    requires b > 0
    ensures TruncDiv(a, b) * b + r == a
    ensures a >= 0 ==> 0 <= r < b
    ensures a < 0 ==> -b < r <= 0
  {
    a - b * TruncDiv(a, b)
  }

  datatype Clock = Clock(hours: int, minutes: int, seconds: int)

  lemma NestedDivision(a: nat)
    ensures (a / 60) / 60 == a / 3600
  {
    var q := a / 3600;
    var r := a % 3600;
    assert a == 3600 * q + r;
    assert a / 60 == 60 * q + r / 60;
  }

  /** `d / 3600`, `(d / 60) % 60` and `d % 60`: hours, minutes and seconds
      that add back up to `d`. For a non-negative duration the minutes and
      seconds are below 60 and the hours are not bounded; a negative duration
      gives non-positive parts. */
  function SplitDuration(d: int): (c: Clock)
    ensures c.hours * 3600 + c.minutes * 60 + c.seconds == d
    ensures d >= 0 ==> 0 <= c.hours && 0 <= c.minutes < 60 && 0 <= c.seconds < 60
    ensures d < 0 ==> c.hours <= 0 && -60 < c.minutes <= 0 && -60 < c.seconds <= 0
  {
    NestedDivision(if d >= 0 then d else -d);
    Clock(TruncDiv(d, 3600), TruncRem(TruncDiv(d, 60), 60), TruncRem(d, 60))
  }

  /** For a non-negative duration these are the only hours, minutes and
      seconds with minutes and seconds below 60 that add up to it. */
  lemma SplitDurationUnique(d: int, h: int, m: int, s: int)
    requires d >= 0 && 0 <= m < 60 && 0 <= s < 60
    requires h * 3600 + m * 60 + s == d
    ensures SplitDuration(d) == Clock(h, m, s)
  {
    var c := SplitDuration(d);
    var t1 := m * 60 + s;
    var t2 := c.minutes * 60 + c.seconds;
    assert 0 <= t1 < 3600 && 0 <= t2 < 3600;
    assert (h - c.hours) * 3600 == t2 - t1;
    assert h == c.hours;
    assert m == c.minutes;
  }

  /** `{:0>2}`: left-pad with `0` to two characters. The text ends with `t`,
      everything before it is `0`, and the result is two characters long or
      `t` when that is already longer. */
  function Pad2(t: string): (p: string)
    ensures |p| == if |t| < 2 then 2 else |t|
    ensures forall i | 0 <= i < |t| :: p[|p| - |t| + i] == t[i]
    ensures forall i | 0 <= i < |p| - |t| :: p[i] == '0'
  {
    if |t| < 2 then seq(2 - |t|, _ => '0') + t else t
  }

  /** `format!("{h}:{m:0>2}:{s:0>2}")`. For a split non-negative duration
      this is the hours' digits followed by `:mm:ss`, six characters with
      two digits each for minutes and seconds. */
  function FormatClock(c: Clock): (f: string)
    ensures 0 <= c.hours && 0 <= c.minutes < 60 && 0 <= c.seconds < 60 ==> f == ShowNat(c.hours) + ClockTail(c)
  {
    var minutes := Pad2(ShowInt(c.minutes));
    var seconds := Pad2(ShowInt(c.seconds));
    var tail := [':'] + minutes + [':'] + seconds;
    if 0 <= c.hours && 0 <= c.minutes < 60 && 0 <= c.seconds < 60 then
      TwoDigits(c.minutes);
      TwoDigits(c.seconds);
      assert tail == ClockTail(c);
      // `ShowInt` of a non-negative number is `ShowNat` of it.
      ShowNat(c.hours) + tail
    else ShowInt(c.hours) + tail
  }

  lemma TwoDigits(n: int)
    requires 0 <= n < 60
    ensures Pad2(ShowInt(n)) == [DigitChar(n / 10), DigitChar(n % 10)]
  {
    var t := ShowInt(n);
    if n < 10 {
      assert t == [DigitChar(n)];
      assert Pad2(t) == ['0'] + t;
      assert DigitChar(n / 10) == '0' && n % 10 == n;
    } else {
      assert ShowNat(n / 10) == [DigitChar(n / 10)];
      assert t == [DigitChar(n / 10), DigitChar(n % 10)];
      assert Pad2(t) == t;
    }
  }

  lemma DigitCharInjective(a: nat, b: nat)
    requires a < 10 && b < 10 && DigitChar(a) == DigitChar(b)
    ensures a == b
  {
  }

  /** The six characters after the hours: `:mm:ss`. */
  function ClockTail(c: Clock): string
    requires 0 <= c.minutes < 60 && 0 <= c.seconds < 60
  {
    [':', DigitChar(c.minutes / 10), DigitChar(c.minutes % 10), ':', DigitChar(c.seconds / 10), DigitChar(c.seconds % 10)]
  }

  lemma ClockTailInjective(c1: Clock, c2: Clock)
    requires 0 <= c1.minutes < 60 && 0 <= c1.seconds < 60
    requires 0 <= c2.minutes < 60 && 0 <= c2.seconds < 60
    requires ClockTail(c1) == ClockTail(c2)
    ensures c1.minutes == c2.minutes && c1.seconds == c2.seconds
  {
    var t1, t2 := ClockTail(c1), ClockTail(c2);
    assert t1[1] == t2[1] && t1[2] == t2[2] && t1[4] == t2[4] && t1[5] == t2[5];
    DigitCharInjective(c1.minutes / 10, c2.minutes / 10);
    DigitCharInjective(c1.minutes % 10, c2.minutes % 10);
    DigitCharInjective(c1.seconds / 10, c2.seconds / 10);
    DigitCharInjective(c1.seconds % 10, c2.seconds % 10);
  }

  /** The rendered offset determines the duration: two non-negative
      durations have the same `h:mm:ss` text exactly when they are equal. */
  lemma ClockTextDeterminesDuration(d1: int, d2: int)
    requires d1 >= 0 && d2 >= 0
    ensures FormatClock(SplitDuration(d1)) == FormatClock(SplitDuration(d2)) <==> d1 == d2
  {
    if FormatClock(SplitDuration(d1)) != FormatClock(SplitDuration(d2)) {
      return;
    }
    var c1 := SplitDuration(d1);
    var c2 := SplitDuration(d2);
    var h1, h2 := ShowNat(c1.hours), ShowNat(c2.hours);
    var t := FormatClock(c1);
    assert |h1| == |h2|;
    assert h1 == t[..|h1|] == h2;
    assert ClockTail(c1) == t[|h1|..] == ClockTail(c2);
    ShowNatInjective(c1.hours, c2.hours);
    ClockTailInjective(c1, c2);
  }

  /** With 1000 nations in the world and a one-hour update, a region with 500
      nations ahead of it updates half an hour in. */
  lemma HalfwayScenario()
    ensures SplitDuration(Elapsed(500, 1000, 3600)) == Clock(0, 30, 0)
  {
    assert Elapsed(500, 1000, 3600) == 1800;
    SplitDurationUnique(1800, 0, 30, 0);
  }

  /** Half an hour renders as `0:30:00`: unpadded hours, two-digit minutes
      and seconds. */
  lemma HalfHourText()
    ensures FormatClock(Clock(0, 30, 0)) == "0:30:00"
  {
    HalfHourPieces();
  }

  /** The pieces of that text: the hours' digits and the `:mm:ss` tail. */
  lemma HalfHourPieces()
    ensures ShowNat(0) + ClockTail(Clock(0, 30, 0)) == "0:30:00"
  {
    assert DigitChar(3) == '3' && DigitChar(0) == '0';
    assert ShowNat(0) == "0";
    assert ClockTail(Clock(0, 30, 0)) == ":30:00";
  }

  // ---------------------------------------------------------------------------
  // Endorsements, link, factbook

  /** The delegate's own vote is not an endorsement: a positive vote count
      loses exactly one; a count of zero (no delegate) stays zero. A
      non-negative count never turns negative and never grows. */
  function Endorsements(votes: int): (e: int)
    ensures votes == 0 ==> e == 0
    ensures votes != 0 ==> e + 1 == votes
    ensures votes >= 0 ==> 0 <= e <= votes
  {
    if votes == 0 then votes else votes - 1
  }

  /** The region's page: the fixed base followed by its slug. The part after
      the base has one character per character of the name, holds no space
      and no upper-case ASCII letter. */
  function RegionLink(name: string): (url: string)
    ensures |url| == |RegionUrlBase| + |name| && url[..|RegionUrlBase|] == RegionUrlBase
    ensures forall i | 0 <= i < |name| :: url[|RegionUrlBase| + i] == SlugChar(name[i])
    ensures forall i | |RegionUrlBase| <= i < |url| :: url[i] != ' ' && !('A' <= url[i] <= 'Z')
  {
    var slug := Slug(name);
    SlugCanonical(name);
    var url := RegionUrlBase + slug;
    assert url[..|RegionUrlBase|] == RegionUrlBase;
    assert forall i | 0 <= i < |name| :: url[|RegionUrlBase| + i] == slug[i];
    assert forall i | |RegionUrlBase| <= i < |url| :: url[i] == slug[i - |RegionUrlBase|];
    url
  }

  /** A name and its slug link to the same page. */
  lemma RegionLinkOfSlug(name: string)
    ensures RegionLink(Slug(name)) == RegionLink(name)
  {
    SlugCanonical(name);
  }

  /** `String::truncate(n)` when `n` is below the length: the prefix of
      exactly `n` UTF-8 bytes, or `None` (the source panics) when byte `n`
      falls inside a character. */
  function CutAtByte(s: string, n: nat): (r: Option<string>)
    ensures r.Some? ==> |r.value| <= |s| && r.value == s[..|r.value|] && Utf8Length(r.value) == n
    ensures r.None? ==> forall k | 0 <= k <= |s| :: Utf8Length(s[..k]) != n
    decreases |s|
  {
    if n == 0 then
      assert s[..0] == [];
      Some([])
    else if |s| == 0 then None
    else if Utf8Width(s[0]) > n then
      assert forall k | 1 <= k <= |s| :: Utf8Length(s[..k]) == Utf8Width(s[0]) + Utf8Length(s[1..][..k - 1]) by {
        forall k | 1 <= k <= |s| ensures Utf8Length(s[..k]) == Utf8Width(s[0]) + Utf8Length(s[1..][..k - 1]) {
          assert s[..k][1..] == s[1..][..k - 1];
        }
      }
      None
    else
      var rest := CutAtByte(s[1..], n - Utf8Width(s[0]));
      forall k | 1 <= k <= |s| ensures Utf8Length(s[..k]) == Utf8Width(s[0]) + Utf8Length(s[1..][..k - 1]) {
        assert s[..k][1..] == s[1..][..k - 1];
      }
      if rest.None? then None
      else
        assert [s[0]] + rest.value == s[..1 + |rest.value|];
        Some([s[0]] + rest.value)
  }

  /** `factbook.truncate(n)` as the source writes it: it counts UTF-8 bytes,
      keeps an entry of at most `n` bytes whole, cuts a longer one to exactly
      `n` bytes, and panics (`None`) exactly when byte `n` falls inside a
      multi-byte character. */
  function TruncateBytes(s: string, n: nat): (r: Option<string>)
    ensures Utf8Length(s) <= n ==> r == Some(s)
    ensures r.None? <==> Utf8Length(s) > n && forall k | 0 <= k <= |s| :: Utf8Length(s[..k]) != n
    ensures r.Some? ==> |r.value| <= |s| && r.value == s[..|r.value|] && Utf8Length(r.value) <= n
    ensures r.Some? && Utf8Length(s) > n ==> Utf8Length(r.value) == n
    ensures r.Some? ==> |r.value| <= n
  {
    if Utf8Length(s) <= n then
      assert s[..|s|] == s;
      Some(s)
    else CutAtByte(s, n)
  }

  /** The longest prefix of `s` that fits in `n` UTF-8 bytes: the cut at the
      last character boundary at or below byte `n`. */
  function CutBelowByte(s: string, n: nat): (t: string)
    ensures |t| <= |s| && t == s[..|t|] && Utf8Length(t) <= n
    ensures |t| < |s| ==> Utf8Length(t) + Utf8Width(s[|t|]) > n
    ensures Utf8Length(s) <= n ==> t == s
    decreases |s|
  {
    if |s| == 0 then []
    else if Utf8Width(s[0]) > n then []
    else
      var rest := CutBelowByte(s[1..], n - Utf8Width(s[0]));
      var t := [s[0]] + rest;
      assert t[1..] == rest;
      assert t == s[..1 + |rest|];
      t
  }

  /** The factbook cell text: the entry cut at the last character boundary
      at or below byte `MaxCellLength`. It never fails, fits Excel's limit
      in bytes and so in characters, keeps an entry that fits whole, and
      cuts no more than the limit forces. */
  function TruncateCell(s: string): (t: string)
    ensures |t| <= |s| && t == s[..|t|]
    ensures Utf8Length(t) <= MaxCellLength && |t| <= MaxCellLength
    ensures Utf8Length(s) <= MaxCellLength ==> t == s
    ensures |t| < |s| ==> Utf8Length(t) + Utf8Width(s[|t|]) > MaxCellLength
  {
    CutBelowByte(s, MaxCellLength)
  }

  /** Truncating an already truncated entry changes nothing. */
  lemma TruncateCellIdempotent(s: string)
    ensures TruncateCell(TruncateCell(s)) == TruncateCell(s)
  {
  }

  /** Wherever the source's truncation does not panic, the corrected cut
      gives the same text. */
  lemma TruncateCellAgrees(s: string)
    requires TruncateBytes(s, MaxCellLength).Some?
    ensures TruncateBytes(s, MaxCellLength).value == TruncateCell(s)
  {
    var p := TruncateBytes(s, MaxCellLength).value;
    var t := TruncateCell(s);
    if Utf8Length(s) > MaxCellLength {
      if |t| < |p| {
        Utf8LengthPrefix(s, |t|, |p|);
      } else if |p| < |t| {
        Utf8LengthPrefix(s, |p|, |t|);
      }
    }
  }

  /** Cutting an ASCII string at `n` bytes is cutting it at `n` characters. */
  lemma {:induction false} CutAtByteAscii(s: string, n: nat)
    requires IsAscii(s) && n <= |s|
    ensures CutAtByte(s, n) == Some(s[..n])
    decreases |s|
  {
    Utf8LengthAscii(s[..n]);
    var r := CutAtByte(s, n);
    if r.Some? {
      Utf8LengthAscii(s[..|r.value|]);
    }
  }

  /** On ASCII text the source's truncation never panics and keeps the first
      `MaxCellLength` characters, as the corrected cut does. */
  lemma TruncationsAgreeOnAscii(s: string)
    requires IsAscii(s)
    ensures TruncateBytes(s, MaxCellLength) == Some(TruncateCell(s))
    ensures TruncateCell(s) == if |s| <= MaxCellLength then s else s[..MaxCellLength]
  {
    Utf8LengthAscii(s);
    if |s| > MaxCellLength {
      CutAtByteAscii(s, MaxCellLength);
    }
    TruncateCellAgrees(s);
  }

  /** The source's truncation panics on a factbook of `MaxCellLength - 1`
      ASCII characters followed by `é` (two bytes in UTF-8): byte 32767 falls
      inside the `é`. The corrected cut drops the `é` and keeps the rest. */
  lemma TruncateBytesPanics(prefix: string)
    requires IsAscii(prefix) && |prefix| == MaxCellLength - 1
    ensures TruncateBytes(prefix + ['é'], MaxCellLength).None?
    ensures TruncateCell(prefix + ['é']) == prefix
  {
    var s := prefix + ['é'];
    Utf8LengthConcat(prefix, ['é']);
    Utf8LengthAscii(prefix);
    forall k | 0 <= k <= |s| ensures Utf8Length(s[..k]) != MaxCellLength {
      if k <= |prefix| {
        assert s[..k] == prefix[..k];
        Utf8LengthAscii(prefix[..k]);
      } else {
        assert s[..k] == s;
      }
    }
    var t := TruncateCell(s);
    assert |t| < |s|;
    assert t == prefix[..|t|];
    Utf8LengthAscii(prefix[..|t|]);
  }

  // ---------------------------------------------------------------------------
  // Rows

  /** What one row of the sheet holds, cell by cell. */
  datatype Row = Row(
    index: nat,
    name: string,
    link: string,
    population: int,
    nationsBefore: int,
    minor: string,
    major: string,
    delegateVotes: int,
    endorsements: int,
    factbook: string)

  /** The `h:mm:ss` text of the predicted offset into an update of `length`
      seconds. */
  function OffsetText(nationsBefore: int, total: int, length: int): string {
    FormatClock(SplitDuration(Elapsed(nationsBefore, total, length)))
  }

  /** The cells of the row for `r`: the region's own values copied, its
      link, its endorsements one below a non-zero vote count, and its
      factbook cut to fit a cell (whole when it already fits). */
  function MakeRow(r: Region, index: nat, total: int, majorLength: int, minorLength: int): (row: Row)
    requires Eligible(r)
    ensures row.link == RegionLink(row.name)
    ensures row.minor == OffsetText(row.nationsBefore, total, minorLength)
    ensures row.major == OffsetText(row.nationsBefore, total, majorLength)
    ensures row.endorsements == Endorsements(row.delegateVotes)
    ensures row.factbook == TruncateCell(r.factbook.value)
    ensures row.index == index && row.name == r.name.value && row.population == r.population.value
    ensures row.nationsBefore == r.nationsBefore.value && row.delegateVotes == r.delegateVotes.value
    ensures |row.link| == |RegionUrlBase| + |row.name|
    ensures forall i | 0 <= i < |RegionUrlBase| :: row.link[i] == RegionUrlBase[i]
    ensures row.delegateVotes != 0 ==> row.endorsements + 1 == row.delegateVotes
    ensures |row.factbook| <= |r.factbook.value|
    ensures forall i | 0 <= i < |row.factbook| :: row.factbook[i] == r.factbook.value[i]
    ensures Utf8Length(row.factbook) <= MaxCellLength
    ensures Utf8Length(r.factbook.value) <= MaxCellLength ==> row.factbook == r.factbook.value
  {
    var nb := r.nationsBefore.value;
    var link := RegionLink(r.name.value);
    assert forall i | 0 <= i < |RegionUrlBase| :: link[i] == link[..|RegionUrlBase|][i];
    var factbook := TruncateCell(r.factbook.value);
    assert forall i | 0 <= i < |factbook| :: factbook[i] == r.factbook.value[..|factbook|][i];
    var minor := OffsetText(nb, total, minorLength);
    var major := OffsetText(nb, total, majorLength);
    Row(index, r.name.value, link, r.population.value, nb, minor, major,
        r.delegateVotes.value, Endorsements(r.delegateVotes.value), factbook)
  }

  /** Writing the next eligible region's row keeps the rows in step with the
      eligible regions. */
  lemma RowsExtend(rows: seq<Row>, kept: seq<Region>, region: Region, total: int, majorLength: int, minorLength: int)
    requires |rows| == |kept| && Eligible(region)
    requires forall k | 0 <= k < |kept| :: Eligible(kept[k])
    requires forall k | 0 <= k < |rows| :: rows[k] == MakeRow(kept[k], k + 1, total, majorLength, minorLength)
    ensures forall k | 0 <= k < |rows| + 1 ::
              && Eligible((kept + [region])[k])
              && (rows + [MakeRow(region, |rows| + 1, total, majorLength, minorLength)])[k]
                 == MakeRow((kept + [region])[k], k + 1, total, majorLength, minorLength)
  {
  }

  /** The loop of `save_to_excel`: skip regions missing a required field and
      write the others on consecutive rows from row 1, in input order. */
  method BuildRows(regions: seq<Region>, total: int, majorLength: int, minorLength: int) returns (rows: seq<Row>)
    ensures |rows| == |Eligibles(regions)|
    ensures forall k | 0 <= k < |rows| :: rows[k].index == k + 1
    ensures forall k | 0 <= k < |rows| :: rows[k] == MakeRow(Eligibles(regions)[k], k + 1, total, majorLength, minorLength)
  {
    rows := [];
    var rowIndex := 1;
    ghost var kept: seq<Region> := [];
    for i := 0 to |regions|
      invariant kept == Eligibles(regions[..i])
      invariant rowIndex == |rows| + 1 && |rows| == |kept|
      invariant forall k | 0 <= k < |kept| :: Eligible(kept[k])
      invariant forall k | 0 <= k < |rows| :: rows[k] == MakeRow(kept[k], k + 1, total, majorLength, minorLength)
    {
      assert regions[..i + 1][..i] == regions[..i];
      var region := regions[i];
      if !Eligible(region) {
        assert Eligibles(regions[..i + 1]) == kept;
        continue;
      }
      assert Eligibles(regions[..i + 1]) == kept + [region];
      RowsExtend(rows, kept, region, total, majorLength, minorLength);
      rows := rows + [MakeRow(region, rowIndex, total, majorLength, minorLength)];
      kept := kept + [region];
      rowIndex := rowIndex + 1;
    }
    assert regions[..|regions|] == regions;
  }
}

=== FILE: wrappers.dfy ===
/** Failure-compatible wrappers shared by the other modules: `Option` for the
    source's `Option<T>` fields and `Result` for its `anyhow::Result` returns. */
module Wrappers {

  /** An optional value, as Rust's `Option<T>`. */
  datatype Option<+T> = None | Some(value: T) {

    /** The wrapped value, or `default` when there is none. */
    function GetOr(default: T): T {
      match this
      case Some(v) => v
      case None => default
    }
  }

  /** Either a value or an error; usable with `:-`. */
  datatype Result<+R, +E> = Success(value: R) | Failure(error: E) {

    predicate IsFailure() {
      Failure?
    }

    function PropagateFailure<U>(): Result<U, E>
      requires Failure?
    {
      Failure(error)
    }

    function Extract(): R
      requires Success?
    {
      value
    }
  }
}
